=== FILE: README.md ===
# QA dataset generator — a Dafny model of its core

The generator asks a language model (OpenAI or a local Ollama server) for
question/answer/category triples about a list of topics. It keeps the
triples that parse, are long enough and were not generated recently. It
stores them in a SQLite table `qa_pairs`, skipping questions too similar to
ones already stored, and exports the table as JSON lines.

This project models the three files that do that work:

- `src/data/database_operations.py`:
  - the table (`create_table`, `insert_qa_pair`, `get_all_qa_pairs`);
  - the similarity-based duplicate check (`is_duplicate`);
  - the statistics (`get_dataset_stats`);
  - the JSON export (`export_to_json`).
- `src/utils/api_client.py`:
  - the bounded recent-question cache (`QuestionCache`);
  - the retry loop of `make_api_request`;
  - the field extraction, category fallback and acceptance filter of `generate_qa_pair`;
  - `infer_category`.
- `src/data/dataset_creator.py`:
  - the batch loop of `create_dataset`, with its 50-consecutive-errors circuit breaker and its progress reports;
  - `generate_dataset_batch`, `resume_dataset_creation` and `get_generation_progress`.

Modules, one file each:

| file | module | models |
|---|---|---|
| `wrappers.dfy` | `Wrappers` | `Option` and `Result` |
| `text.dfy` | `Text` | ASCII `str.lower`, `str.isspace`, `str.strip`, `str.capitalize`, substring test |
| `database.dfy` | `Database` | the `qa_pairs` table and its operations |
| `export.dfy` | `Export` | `export_to_json` |
| `recent_cache.dfy` | `RecentCache` | `QuestionCache` |
| `extraction.dfy` | `Extraction` | the regular-expression field scan of `generate_qa_pair` |
| `api_client.dfy` | `ApiClient` | `make_api_request`, `generate_qa_pair`, `infer_category` |
| `dataset_creator.dfy` | `DatasetCreator` | `create_dataset` and its wrappers |

The external world is turned into parameters:

- `SequenceMatcher(None, a, b).ratio()` is an arbitrary function `sim` from two strings to a real. The duplicate check applies it to the lower-cased strings, as the source does.
- The outcome of each API attempt is an oracle `attempt: nat -> Option<Response>`. `None` stands for an attempt that raised and was caught.
- The loop of `create_dataset` runs over a finite trace of signals, one per evaluation of the loop head. Each signal says either:
  - that the stop event was seen set there; or
  - which topic `random.choice` picked and what `generate_qa_pair` did: cancelled by the stop event, returned a reply (or none after failed retries), or raised.
- The SQLite file is a value: a database either has the `qa_pairs` table (rows in insertion order plus the next AUTOINCREMENT key) or does not. A statement on a missing table fails with `NoSuchTable`. An insert of a stored question fails with `UniqueViolation` (the `UNIQUE` constraint).

## Model

| member | source | states |
|---|---|---|
| Database.CreateTable | src/data/database_operations.py:28-41 | after the call the table exists; an existing table and its rows are kept; a new table is empty and well formed |
| Database.CreateTableIdempotent | src/data/database_operations.py:36 | `CREATE TABLE IF NOT EXISTS` a second time changes nothing |
| Database.AnySimilar | src/data/database_operations.py:58-63 | the scan answers true exactly when some stored question's lower-cased similarity to the new one exceeds the threshold |
| Database.IsDuplicate | src/data/database_operations.py:44-63 | fails iff there is no table; otherwise true iff some stored question is more similar than the threshold, compared in lower case |
| Database.Insert | src/data/database_operations.py:66-79 | fails with no table; fails with a UNIQUE violation iff the exact question is stored; otherwise appends exactly one row holding the given fields after the unchanged earlier rows, and a well-formed table (increasing keys below the next key, unique questions) stays well formed |
| Database.GetAllQaPairs | src/data/database_operations.py:82-94 | fails iff there is no table; otherwise returns every stored row exactly as often as it is stored (the same multiset of rows), so as many pairs as rows, each a stored row |
| Database.EmptyTableHasNoDuplicate | src/data/database_operations.py:53-63 | on a freshly created table nothing is a duplicate, whatever the threshold and similarity |
| Database.DuplicateIgnoresCase | src/data/database_operations.py:59-60 | the check gives the same answer for a question and its lower-cased form |
| Database.DuplicateAntitone | src/data/database_operations.py:61 | a question that is a duplicate at one threshold is a duplicate at every lower threshold |
| Database.DuplicateSurvivesInsert | src/data/database_operations.py:55-62 | inserting more rows never turns a duplicate into a non-duplicate |
| Database.PassedCheckInsertSucceeds | src/data/database_operations.py:36-40 | when identical strings have similarity 1 and the threshold is below 1, a question that passed the duplicate check cannot hit the UNIQUE constraint |
| Database.ThresholdExample | tests/test_database_operations.py:100-112 | a question with similarity between 0.7 and 0.9 to the stored one is a duplicate at threshold 0.7 and not at the default 0.9 |
| Database.CategoryCounts | src/data/database_operations.py:137-139 | `GROUP BY category`: the keys are exactly the categories present, and each value is the positive number of rows in that category |
| Database.CountsSumToRows | src/data/database_operations.py:134-139 | the per-category counts add up to the total row count |
| Database.GetDatasetStats | src/data/database_operations.py:125-144 | fails iff there is no table; otherwise the total is the number of rows, the counts are the per-category counts, and their sum is the total |
| Export.ReplaceNewlinesCleans | src/data/database_operations.py:110-112 | after the replacement no newline is left, every other character is kept in place, a clean string is unchanged, and replacing twice is the same as once |
| Export.ProgressCalls | src/data/database_operations.py:109-119 | the callback fires at every multiple of 100 and at the last record, only there, in increasing order, ceil(n/100) times, never for an empty table, and last with (n, n) |
| Export.ScheduleComplete | src/data/database_operations.py:118-119 | every index from 1 to k that is a multiple of 100 or the last one gets its progress call |
| Export.ExportToJson | src/data/database_operations.py:97-122 | fails iff there is no table; otherwise one record per row in row order, with the same id and category and the question and answer with newlines replaced, so no record holds a newline; the progress calls are exactly those of `ProgressCalls`: strictly increasing, each `(i, n)` with a reporting index `i` in 1..n, every reporting index present, ceil(n/100) of them, the last `(n, n)` |
| RecentCache.Add | src/utils/api_client.py:21-27 | the deque never holds more than `maxlen` keys; when the capacity is positive the new lower-cased key is the newest; when full the oldest key drops out |
| RecentCache.IsRecent | src/utils/api_client.py:29-31 | the membership test of the lower-cased key in the deque; what it answers after a history of adds is stated by `RecentIffInWindow` and `EvictedAfterCapacityAdds` |
| RecentCache.AddThenRecent | src/utils/api_client.py:25-31 | when the capacity is positive, right after adding a question, it and every question equal to it ignoring case count as recent |
| RecentCache.HoldsLastAdded | src/utils/api_client.py:22-27 | after any sequence of adds, the cache holds exactly the keys of the last `maxlen` questions added, oldest first |
| RecentCache.RecentIffInWindow | src/utils/api_client.py:29-31 | a question is recent iff its lower-cased form is among the last `maxlen` added |
| RecentCache.EvictedAfterCapacityAdds | src/utils/api_client.py:22-31 | after `maxlen` further adds of other questions, a question is no longer recent |
| RecentCache.StaysRecentWithinCapacity | src/utils/api_client.py:22-31 | a question stays recent while fewer than `maxlen` further questions have been added after it |
| RecentCache.DefaultCacheWindow | src/utils/api_client.py:21-34 | the process-wide `QuestionCache()` of capacity 1000 keeps a question recent through the next 999 adds and forgets it after 1000 adds of other questions |
| Extraction.FindLabel | src/utils/api_client.py:184-185 | finds the first case-insensitive `Label:` at or after the start position, or reports that none exists |
| Extraction.FindBoundary | src/utils/api_client.py:184 | the lazy capture ends at the first position where a newline followed by a label begins, or where `$` matches: the end or before a final newline |
| Extraction.Capture | src/utils/api_client.py:184-187 | the stripped capture after a label has no whitespace at either end and holds no newline followed by a label |
| Extraction.ExtractField | src/utils/api_client.py:183-192 | no value iff the label occurs nowhere; a value is stripped and holds no newline followed by a label |
| Extraction.ExtractFieldIsFirstMatch | src/utils/api_client.py:184-187 | the value is the stripped text between the whitespace after the first label and the first boundary after it |
| Extraction.ExtractFields | src/utils/api_client.py:180-192 | each of question, answer and category is absent iff its label occurs nowhere in the text, and otherwise stripped and free of any newline followed by a label |
| Extraction.EmptyQuestionSwallowsAnswer | src/utils/api_client.py:184 | the greedy `\s*` eats the newline after an empty `Question:`, so the question captures the `Answer:` line |
| ApiClient.InferCategory | src/utils/api_client.py:222-230 | "python" wins, then a maths keyword, then a science keyword, else the capitalised topic; the result is empty only for an unmatched question with an empty topic |
| ApiClient.InferCategoryIgnoresCase | src/utils/api_client.py:222-229 | the category depends on the question only through its lower-cased form |
| ApiClient.RetryFrom | src/utils/api_client.py:113-142 | the attempts from k on: the first success is returned after only failures, success iff some remaining attempt succeeds, all attempts are used up on failure, and the sleep after failed attempt j is 2(j+1) seconds, except after the last |
| ApiClient.LinearWaitsSum | src/utils/api_client.py:99-103 | sleeping 2, 4, ..., 2n seconds takes n(n+1) seconds |
| ApiClient.MakeApiRequest | src/utils/api_client.py:76-145 | an invalid backend makes no attempt and returns nothing; otherwise at most `max_retries` attempts, a reply iff some attempt succeeds, the first success wins, and n attempts sleep n(n-1) seconds in all |
| ApiClient.ResponseText | src/utils/api_client.py:173-176 | the response text is the message content, or the JSON `response` field, with only the whitespace at either end removed, so it has none there; an Ollama reply without a `response` field reads as the empty string |
| ApiClient.FinalCategory | src/utils/api_client.py:196-200 | a non-empty extracted category is kept; a missing or empty one is replaced by `infer_category` of the extracted question (or the empty string) and the topic; the result is empty only when the topic is |
| ApiClient.Admit | src/utils/api_client.py:168-219 | a triple comes back iff the question and answer were extracted and, with the category fallback, pass the non-empty, length (> 10, > 20) and not-recent filter; its fields are the extracted ones; its question is then cached; a rejection leaves the cache unchanged |
| ApiClient.GenerateQaPair | src/utils/api_client.py:148-219 | a set stop event returns nothing before any request; an invalid backend returns nothing; when every attempt fails nothing comes back and the cache is unchanged; a returned triple passed the filter against the cache before the call and, when the cache capacity is positive, is recent afterwards |
| ApiClient.FirstSuccessDecides | src/utils/api_client.py:163-211 | with the stop event clear and a valid backend, the first successful attempt `j` decides the call: `j + 1` attempts were made, and the triple and the cache are what admitting that attempt's reply gives |
| DatasetCreator.Judge | src/data/dataset_creator.py:30-57 | after `generate_qa_pair`, one outcome per case: a falsy triple counts one error and reports progress; a duplicate changes nothing but the progress report; a fresh question whose insert succeeds is stored, the count goes up by one, errors reset to 0 and the new count is reported; an exception from the check or the insert counts one error without a report |
| DatasetCreator.Iterate | src/data/dataset_creator.py:28-57 | one loop body: an exception from `generate_qa_pair` counts one error without a report; a cancelled call or one without a reply counts one error and reports progress; the count grows by at most one and only through one appended row that passed the length checks and the duplicate check, and then errors reset to 0 and the new count is reported |
| DatasetCreator.IterateReplyCases | src/data/dataset_creator.py:29-44 | after a reply the cache is the one its admission left; a rejected reply counts one error and reports progress; an admitted duplicate changes nothing but the progress report; an exception from the duplicate check or the insert counts one error and reports nothing |
| DatasetCreator.IterateReplyInserts | src/data/dataset_creator.py:32-36 | an admitted triple that is no duplicate and whose insert succeeds is stored: the table is the one the insert produced and the count goes up by one |
| DatasetCreator.IterateInsertsNotRecent | src/utils/api_client.py:208-211 | a row a loop body inserts was not in the recent-question cache when that body began |
| DatasetCreator.Run | src/data/dataset_creator.py:27-57 | the `while` loop itself, as the reference the other members are stated against: it ends complete at the target, stopped where the head sees the stop event, with no topics on an empty list, aborted after a body that brings the errors to 50, and otherwise when the trace runs out |
| DatasetCreator.RunEnds | src/data/dataset_creator.py:27-57 | a run ends complete exactly when the count has reached the target; it makes at most one iteration per signal, exactly one per signal when the trace runs out, and none when the topic list is empty |
| DatasetCreator.RunSound | src/data/dataset_creator.py:27-57 | along a whole run the new rows extend the old ones, and each has a question longer than 10, an answer longer than 20, a non-empty category and no stored question more similar than the threshold among the rows before it; progress is monotone and never exceeds the count; the count never exceeds the target |
| DatasetCreator.CreateDataset | src/data/dataset_creator.py:9-59 | the loop returns the number of rows it inserted, at most `num_entries`. It ends complete iff that number is reached, and aborted iff 50 consecutive errors occurred. It stops only where the stop event was seen. The table exists and grows by exactly the returned count, with every new row admitted. Progress reports carry `num_entries`, never decrease, and number at least the count |
| DatasetCreator.GenerateDatasetBatch | src/data/dataset_creator.py:62-74 | a batch is a run of `create_dataset` with the batch size as target |
| DatasetCreator.ResumeDatasetCreation | src/data/dataset_creator.py:77-99 | a target already reached returns the current count without running; otherwise it returns the current count plus the rows generated, which does not exceed the target; it reaches the target iff the run completed; the table grows by exactly the new rows |
| DatasetCreator.GetGenerationProgress | src/data/dataset_creator.py:102-111 | the progress is the number of stored rows, and the call fails when there is no table |
| DatasetCreator.StopHalts | src/data/dataset_creator.py:27 | once the loop head sees the stop event, no further iteration runs and nothing more is inserted |
| DatasetCreator.FailingRunAborts | src/data/dataset_creator.py:41-57 | with only failing iterations, the loop makes exactly the iterations left before 50 consecutive errors, inserts nothing and gives up |
| DatasetCreator.AlwaysFailingGenerator | src/data/dataset_creator.py:21-59 | a generator that always fails makes `create_dataset` run exactly 50 iterations and return 0 with the table unchanged |

## Left out

- Network, OpenAI client, `requests` session with its transport-level `Retry` adapter, and the `ratelimit` decorator (60 calls a minute): foreign calls; each request attempt is an oracle outcome and the sleeps are recorded, not performed.
- `load_settings` and `settings.json`: `max_retries` is a parameter; the other settings (model, temperature, timeout, URL) only shape the request.
- The prompt text, the system message and `random.choice` of prompt and topic: the topic index is part of the oracle trace and the prompt does not affect the modelled logic.
- `SequenceMatcher.ratio()` and floating point: the similarity is an abstract function on strings, and the threshold a real.
- `hashlib.md5` in `QuestionCache`: the cache stores the lower-cased question itself; md5 collisions are not modelled.
- Logging, the progress callback's side effects and the GUI: progress calls are recorded as values.
- JSON encoding and writing the export file: the export yields the records and the progress calls.
- Unicode: case mapping and whitespace follow the ASCII rules of `str.lower`, `str.isspace` and `str.capitalize`.
- Row order of `SELECT` without `ORDER BY`: taken to be insertion order.
- An OpenAI reply whose message content is `None`, or an Ollama JSON `response` that is `null`, makes `.strip()` raise inside `create_dataset`'s `try`: the batch loop covers it with the `Raised` outcome, and `Response` does not carry these values.
- `Response`: the branch is chosen by the reply's shape, not by `api_choice`; the two agree because each backend returns its own shape.
- DatasetCreator.CreateDataset: the source loop need not end (a duplicate changes neither counter), so the model runs over a finite trace and may stop with the trace used up; an empty `topics` list makes `random.choice` raise outside the `try`, modelled as the `NoTopics` exit.
- DatasetCreator.ResumeDatasetCreation: its contract does not restate that its run equals the reference loop `Run` for the remaining count; that follows from `CreateDataset`, whose contract says it.
- DatasetCreator.Run: carries no contract of its own, being the reference definition of the loop; `RunEnds`, `RunSound`, `StopHalts`, `FailingRunAborts` and `CreateDataset` state what it does.
- DatasetCreator.RunSound: does not carry the not-recent clause of the filter along the run, since the cache changes from body to body; `IterateInsertsNotRecent` states it for each loop body.
- DatasetCreator.Iterate: requires a non-empty topic list, since `random.choice` on an empty list raises before the body; `Run` handles that case.
- SQLite errors other than a missing table and the UNIQUE constraint (a locked database, a disk I/O error, a failed connection): `DbError` has no such case, so the model's duplicate check and insert cannot raise them, and the loop never counts them as errors towards the 50-error breaker. Since every run creates the table first, the duplicate check never fails inside a run, and the exception cases of `Judge` and `IterateReplyCases` that start from it are reached only from a state without a table.
- Threads: the stop event is read at the loop head and inside `generate_qa_pair`, and the trace records what each read saw; no other concurrency is modelled.

=== FILE: api_client.dfy ===
/**
 * The generation client: `infer_category`, the retry loop of
 * `make_api_request` and the parsing and acceptance logic of
 * `generate_qa_pair`. Each request attempt is an oracle outcome; the HTTP and
 * OpenAI calls, the rate limiter and the transport-level retry adapter are not
 * modelled.
 */
module ApiClient {
  import opened Wrappers
  import opened Text
  import opened RecentCache
  import opened Extraction

  /** `api_choice`: the two known backends, or any other string. */
  datatype Backend = OpenAI | Ollama | Unknown(choice: string)

  /** What a successful request returns: a chat completion's message content, or the local server's JSON with its optional `response` field. */
  datatype Response = ChatCompletion(content: string) | LocalJson(response: Option<string>)

  /** An accepted question/answer/category triple. */
  datatype Triple = Triple(question: string, answer: string, category: string)

  // ---------------------------------------------------------------------------
  // infer_category
  // ---------------------------------------------------------------------------

  const PythonCategory: string := "Python Programming"
  const MathCategory: string := "Mathematics"
  const ScienceCategory: string := "Science"
  const PythonWord: string := "python"
  const MathWords: seq<string> := ["math", "geometry", "algebra", "calculus"]
  const ScienceWords: seq<string> := ["physics", "chemistry", "biology"]

  /** `any(word in question.lower() for word in words)`. */
  predicate MentionsAny(question: string, words: seq<string>) {
    exists w :: w in words && Contains(Lower(question), w)
  }

  /** `infer_category(question, topic)`: keyword classes in priority order, then the capitalised topic. */
  function InferCategory(question: string, topic: string): (r: string)
    ensures r == PythonCategory || r == MathCategory || r == ScienceCategory || r == Capitalize(topic)
    ensures Contains(Lower(question), PythonWord) ==> r == PythonCategory
    ensures !Contains(Lower(question), PythonWord) && MentionsAny(question, MathWords) ==> r == MathCategory
    ensures (!Contains(Lower(question), PythonWord) && !MentionsAny(question, MathWords)
             && MentionsAny(question, ScienceWords)) ==> r == ScienceCategory
    ensures (!Contains(Lower(question), PythonWord) && !MentionsAny(question, MathWords)
             && !MentionsAny(question, ScienceWords)) ==> r == Capitalize(topic)
    ensures r == "" <==> (!Contains(Lower(question), PythonWord) && !MentionsAny(question, MathWords)
                         && !MentionsAny(question, ScienceWords) && topic == "")
  {
    if Contains(Lower(question), PythonWord) then PythonCategory
    else if MentionsAny(question, MathWords) then MathCategory
    else if MentionsAny(question, ScienceWords) then ScienceCategory
    else Capitalize(topic)
  }

  /** The classifier looks only at the lower-cased question. */
  lemma InferCategoryIgnoresCase(question: string, topic: string)
    ensures InferCategory(Lower(question), topic) == InferCategory(question, topic)
  {
    LowerIdempotent(question);
  }

  // ---------------------------------------------------------------------------
  // make_api_request: the retry loop
  // ---------------------------------------------------------------------------

  /** What one call of `make_api_request` did: its result, how many attempts it made, and the sleeps between them. */
  datatype RequestLog = RequestLog(reply: Option<Response>, attempts: nat, waits: seq<nat>)

  /** Seconds slept after failed attempt number `k` (0-based) when another attempt follows. */
  function WaitAfter(k: nat): nat {
    (k + 1) * 2
  }

  /**
   * Iterations `k, k + 1, ...` of `for attempt in range(max_retries)`:
   * `attempt(j)` is the outcome of the j-th attempt (`None` for a caught
   * exception). The first success returns at once; a failure that is not the
   * last attempt sleeps `WaitAfter(j)` seconds first.
   */
  function RetryFrom(maxRetries: int, attempt: nat -> Option<Response>, k: nat): (r: RequestLog)
    ensures r.attempts <= (if maxRetries > k then maxRetries - k else 0)
    ensures r.reply.Some? <==> exists j: nat :: k <= j < maxRetries && attempt(j).Some?
    ensures r.reply.Some? ==> r.attempts >= 1 && r.reply == attempt(k + r.attempts - 1)
    ensures forall j: nat :: k <= j < k + r.attempts - 1 ==> attempt(j).None?
    ensures r.reply.None? ==> r.attempts == (if maxRetries > k then maxRetries - k else 0)
    ensures |r.waits| == (if r.attempts == 0 then 0 else r.attempts - 1)
    ensures forall j :: 0 <= j < |r.waits| ==> r.waits[j] == WaitAfter(k + j)
    decreases maxRetries - k
  {
    if k >= maxRetries then RequestLog(None, 0, [])
    else if attempt(k).Some? then RequestLog(attempt(k), 1, [])
    else
      var rest := RetryFrom(maxRetries, attempt, k + 1);
      var wait := if k < maxRetries - 1 then [WaitAfter(k)] else [];
      RequestLog(rest.reply, rest.attempts + 1, wait + rest.waits)
  }

  /** Sum of a sequence of sleeps. */
  function Sum(s: seq<nat>): nat {
    if |s| == 0 then 0 else Sum(s[..|s| - 1]) + s[|s| - 1]
  }

  /** Sleeping 2, 4, ..., 2n seconds takes n(n + 1) seconds. */
  lemma {:induction false} LinearWaitsSum(w: seq<nat>)
    requires forall j :: 0 <= j < |w| ==> w[j] == WaitAfter(j)
    ensures Sum(w) == |w| * (|w| + 1)
  {
    if |w| > 0 {
      LinearWaitsSum(w[..|w| - 1]);
    }
  }

  /**
   * `make_api_request(prompt, api_choice)` with `max_retries` attempts: an
   * unknown backend makes none; otherwise at most `max_retries` attempts, the
   * first success is returned, and `n` attempts sleep `n(n - 1)` seconds in all.
   */
  function MakeApiRequest(backend: Backend, maxRetries: int, attempt: nat -> Option<Response>): (r: RequestLog)
    ensures backend.Unknown? ==> r == RequestLog(None, 0, [])
    ensures r.attempts <= (if maxRetries > 0 then maxRetries else 0)
    ensures r.reply.Some? <==> !backend.Unknown? && exists j: nat :: j < maxRetries && attempt(j).Some?
    ensures r.reply.Some? ==> r.attempts >= 1 && r.reply == attempt(r.attempts - 1)
    ensures forall j: nat :: j < r.attempts - 1 ==> attempt(j).None?
    ensures !backend.Unknown? && r.reply.None? ==> r.attempts == (if maxRetries > 0 then maxRetries else 0)
    ensures forall j :: 0 <= j < |r.waits| ==> r.waits[j] == WaitAfter(j)
    ensures Sum(r.waits) == r.attempts * (r.attempts - 1)
  {
    if backend.Unknown? then RequestLog(None, 0, [])
    else
      var r := RetryFrom(maxRetries, attempt, 0);
      LinearWaitsSum(r.waits);
      assert r.attempts > 0 ==> r.attempts * (r.attempts - 1) == |r.waits| * (|r.waits| + 1);
      r
  }

  // ---------------------------------------------------------------------------
  // generate_qa_pair
  // ---------------------------------------------------------------------------

  /** Minimum lengths a triple must exceed. */
  const MinQuestionLength: nat := 10
  const MinAnswerLength: nat := 20

  /** `response_text`: the reply's text, stripped; a missing `response` field reads as empty. */
  function ResponseText(reply: Response): (text: string)
    ensures Stripped(text)
    // the text is the reply's own text with only surrounding whitespace removed
    ensures reply.ChatCompletion? ==> exists i: nat :: TrimmedAt(reply.content, text, i)
    ensures reply.LocalJson? && reply.response.Some? ==> exists i: nat :: TrimmedAt(reply.response.value, text, i)
    ensures reply == LocalJson(None) ==> text == ""
  {
    match reply
    case ChatCompletion(content) => Strip(content)
    case LocalJson(field) => Strip(field.GetOr(""))
  }

  /** The category after the fallback: the extracted one if non-empty, else inferred from the question (or ""). */
  function FinalCategory(f: Fields, topic: string): (category: string)
    ensures f.category.Some? && f.category.value != "" ==> category == f.category.value
    ensures f.category.None? || f.category.value == "" ==> category == InferCategory(f.question.GetOr(""), topic)
    ensures category == "" ==> topic == ""
  {
    if f.category.None? || f.category.value == "" then InferCategory(f.question.GetOr(""), topic)
    else f.category.value
  }

  /** The acceptance filter: all fields non-empty, long enough, and the question not recently generated. */
  predicate Acceptable(question: string, answer: string, category: string, cache: QuestionCache) {
    && question != "" && answer != "" && category != ""
    && |question| > MinQuestionLength && |answer| > MinAnswerLength
    && !IsRecent(cache, question)
  }

  /** A triple and the cache after one generation. */
  datatype Admission = Admission(triple: Option<Triple>, cache: QuestionCache)

  /**
   * Lines after the request in `generate_qa_pair`: no reply gives no triple;
   * otherwise the fields are extracted, the category falls back to inference,
   * and the triple is returned (and its question cached) exactly when it passes
   * the filter. A rejection leaves the cache as it was.
   */
  function Admit(topic: string, reply: Option<Response>, cache: QuestionCache): (r: Admission)
    ensures reply.None? ==> r == Admission(None, cache)
    ensures r.triple.None? ==> r.cache == cache
    ensures r.triple.Some? ==>
      var f := ExtractFields(ResponseText(reply.value));
      var t := r.triple.value;
      && reply.Some?
      && f.question == Some(t.question) && f.answer == Some(t.answer)
      && (f.category.Some? && f.category.value != "" ==> t.category == f.category.value)
      && (f.category.None? || f.category.value == "" ==> t.category == InferCategory(t.question, topic))
      && Acceptable(t.question, t.answer, t.category, cache)
      && r.cache == Add(cache, t.question)
    ensures reply.Some? ==>
      var f := ExtractFields(ResponseText(reply.value));
      f.question.Some? && f.answer.Some?
      && Acceptable(f.question.value, f.answer.value, FinalCategory(f, topic), cache)
      ==> r.triple.Some?
  {
    if reply.None? then Admission(None, cache)
    else
      var f := ExtractFields(ResponseText(reply.value));
      var category := FinalCategory(f, topic);
      if f.question.Some? && f.answer.Some? && Acceptable(f.question.value, f.answer.value, category, cache) then
        Admission(Some(Triple(f.question.value, f.answer.value, category)), Add(cache, f.question.value))
      else Admission(None, cache)
  }

  /** What `generate_qa_pair` returns, the cache after it, and the request attempts it made. */
  datatype Generation = Generation(triple: Option<Triple>, cache: QuestionCache, attempts: nat)

  /**
   * `generate_qa_pair(topic, stop_event, api_choice)`: a set stop flag returns
   * nothing before any request; otherwise one request (with its retries) and
   * the admission. A returned triple was not recent before and is afterwards.
   */
  function GenerateQaPair(topic: string, stopSet: bool, backend: Backend, maxRetries: int,
                          attempt: nat -> Option<Response>, cache: QuestionCache): (g: Generation)
    ensures stopSet ==> g == Generation(None, cache, 0)
    ensures backend.Unknown? ==> g.triple.None? && g.attempts == 0 && g.cache == cache
    ensures g.attempts <= (if maxRetries > 0 then maxRetries else 0)
    ensures g.triple.None? ==> g.cache == cache
    ensures g.triple.Some? ==>
      var t := g.triple.value;
      && !stopSet
      && Acceptable(t.question, t.answer, t.category, cache)
      && (cache.maxSize > 0 ==> IsRecent(g.cache, t.question))
    // every attempt failed: no triple, and the cache untouched
    ensures (forall j: nat :: j < maxRetries ==> attempt(j).None?) ==> g.triple.None? && g.cache == cache
  {
    if stopSet then Generation(None, cache, 0)
    else
      var log := MakeApiRequest(backend, maxRetries, attempt);
      var a := Admit(topic, log.reply, cache);
      Generation(a.triple, a.cache, log.attempts)
  }

  /**
   * The first attempt that succeeds decides what `generate_qa_pair` returns:
   * its reply goes through the admission after exactly that many attempts.
   */
  lemma FirstSuccessDecides(topic: string, backend: Backend, maxRetries: int,
                            attempt: nat -> Option<Response>, cache: QuestionCache, j: nat)
    requires !backend.Unknown? && j < maxRetries && attempt(j).Some?
    requires forall i: nat :: i < j ==> attempt(i).None?
    ensures var g := GenerateQaPair(topic, false, backend, maxRetries, attempt, cache);
      && g.attempts == j + 1
      && g.triple == Admit(topic, attempt(j), cache).triple
      && g.cache == Admit(topic, attempt(j), cache).cache
  {
    var r := MakeApiRequest(backend, maxRetries, attempt);
    assert r.reply.Some?;
    assert r.attempts == j + 1;
  }
}

=== FILE: database.dfy ===
/**
 * The `qa_pairs` table of the SQLite store and the operations on it:
 * `create_table`, `is_duplicate`, `insert_qa_pair`, `get_all_qa_pairs`
 * and `get_dataset_stats`. The engine is replaced by an in-memory row
 * sequence; a missing table makes every statement on it raise.
 */
module Database {
  import opened Wrappers
  import opened Text

  /** One stored triple; `id` is the AUTOINCREMENT primary key. */
  datatype Row = Row(id: nat, question: string, answer: string, category: string)

  /** The rows in insertion order, and the next key AUTOINCREMENT hands out. */
  datatype Table = Table(rows: seq<Row>, nextId: nat)

  /** A database file: it holds the `qa_pairs` table or not. */
  datatype Database = Database(table: Option<Table>)

  /** The exceptions a statement can raise. */
  datatype DbError =
    | NoSuchTable      // the statement names `qa_pairs` before it was created
    | UniqueViolation  // the UNIQUE constraint on `question` refused an insert

  /**
   * Any function from two strings to a real; stands for `SequenceMatcher(None, a, b).ratio()`.
   * The duplicate check applies it to strings it has already lower-cased, and nothing here
   * assumes the result lies in [0, 1].
   */
  type Similarity = (string, string) -> real

  /** The threshold `is_duplicate` uses when its caller gives none. */
  const DefaultThreshold: real := 0.9

  /** AUTOINCREMENT's first key. */
  const FirstId: nat := 1

  /** A freshly created database file with no table in it. */
  const NewDatabase: Database := Database(None)

  /**
   * What the table's schema and AUTOINCREMENT guarantee: keys strictly
   * increase in insertion order and stay below `nextId`, and no question
   * is stored twice.
   */
  predicate WellFormed(t: Table) {
    && FirstId <= t.nextId
    && (forall i :: 0 <= i < |t.rows| ==> FirstId <= t.rows[i].id < t.nextId)
    && (forall i, j :: 0 <= i < j < |t.rows| ==> t.rows[i].id < t.rows[j].id)
    && (forall i, j :: 0 <= i < j < |t.rows| ==> t.rows[i].question != t.rows[j].question)
  }

  /** `CREATE TABLE IF NOT EXISTS qa_pairs (...)`. */
  function CreateTable(db: Database): (r: Database)
    ensures r.table.Some?
    ensures db.table.Some? ==> r == db
    ensures db.table.None? ==> r.table.value.rows == [] && WellFormed(r.table.value)
  {
    if db.table.Some? then db else Database(Some(Table([], FirstId)))
  }

  /** Creating the table a second time changes nothing. */
  lemma CreateTableIdempotent(db: Database)
    ensures CreateTable(CreateTable(db)) == CreateTable(db)
  {
  }

  /** Some stored question is more similar than `threshold` to `question`, ignoring case. */
  ghost predicate HasSimilar(rows: seq<Row>, question: string, threshold: real, sim: Similarity) {
    exists i :: 0 <= i < |rows| && sim(Lower(question), Lower(rows[i].question)) > threshold
  }

  /** The scan of `is_duplicate` over the selected questions, stopping at the first hit. */
  function AnySimilar(rows: seq<Row>, question: string, threshold: real, sim: Similarity): (b: bool)
    ensures b <==> HasSimilar(rows, question, threshold, sim)
  {
    if |rows| == 0 then false
    else if sim(Lower(question), Lower(rows[0].question)) > threshold then true
    else
      var rest := AnySimilar(rows[1..], question, threshold, sim);
      assert HasSimilar(rows[1..], question, threshold, sim) ==> HasSimilar(rows, question, threshold, sim) by {
        if HasSimilar(rows[1..], question, threshold, sim) {
          var i :| 0 <= i < |rows[1..]| && sim(Lower(question), Lower(rows[1..][i].question)) > threshold;
          assert rows[1..][i] == rows[i + 1];
        }
      }
      rest
  }

  /** `is_duplicate(new_question, db_path, threshold)`. */
  function IsDuplicate(db: Database, question: string, threshold: real, sim: Similarity): (r: Result<bool, DbError>)
    ensures db.table.None? <==> r == Failure(NoSuchTable)
    ensures r.Success? ==> (r.value <==> HasSimilar(db.table.value.rows, question, threshold, sim))
  {
    if db.table.None? then Failure(NoSuchTable)
    else Success(AnySimilar(db.table.value.rows, question, threshold, sim))
  }

  /** A stored question that equals `question` byte for byte. */
  predicate Stored(t: Table, question: string) {
    exists i :: 0 <= i < |t.rows| && t.rows[i].question == question
  }

  /** `INSERT INTO qa_pairs (question, answer, category) VALUES (?, ?, ?)`. */
  function Insert(db: Database, question: string, answer: string, category: string): (r: Result<Database, DbError>)
    ensures db.table.None? ==> r == Failure(NoSuchTable)
    ensures db.table.Some? && Stored(db.table.value, question) ==> r == Failure(UniqueViolation)
    ensures db.table.Some? && !Stored(db.table.value, question) ==> r.Success?
    ensures r.Success? ==> db.table.Some? && r.value.table.Some?
    ensures r.Success? ==>
      var before := db.table.value.rows;
      var after := r.value.table.value.rows;
      && |after| == |before| + 1
      && after[..|before|] == before
      && after[|before|].question == question
      && after[|before|].answer == answer
      && after[|before|].category == category
      && (WellFormed(db.table.value) ==> WellFormed(r.value.table.value))
  {
    if db.table.None? then Failure(NoSuchTable)
    else
      var t := db.table.value;
      if Stored(t, question) then Failure(UniqueViolation)
      else
        var t' := Table(t.rows + [Row(t.nextId, question, answer, category)], t.nextId + 1);
        assert t'.rows[..|t.rows|] == t.rows;
        Success(Database(Some(t')))
  }

  /** `get_all_qa_pairs`: every stored row once. Row order is whatever SELECT returns; insertion order is used here. */
  function GetAllQaPairs(db: Database): (r: Result<seq<Row>, DbError>)
    ensures db.table.None? <==> r == Failure(NoSuchTable)
    ensures r.Success? ==> |r.value| == |db.table.value.rows|
    ensures r.Success? ==> forall i :: 0 <= i < |r.value| ==> r.value[i] in db.table.value.rows
    ensures r.Success? ==> forall i :: 0 <= i < |db.table.value.rows| ==> db.table.value.rows[i] in r.value
    ensures r.Success? ==> multiset(r.value) == multiset(db.table.value.rows)
  {
    if db.table.None? then Failure(NoSuchTable) else Success(db.table.value.rows)
  }

  // ---------------------------------------------------------------------------
  // Properties of the duplicate check and the insert
  // ---------------------------------------------------------------------------

  /** An empty table flags nothing. */
  lemma EmptyTableHasNoDuplicate(question: string, threshold: real, sim: Similarity)
    ensures IsDuplicate(CreateTable(NewDatabase), question, threshold, sim) == Success(false)
  {
  }

  /** The check lower-cases the candidate, so a candidate and its lower-case form get the same answer. */
  lemma {:induction false} DuplicateIgnoresCase(db: Database, question: string, threshold: real, sim: Similarity)
    ensures IsDuplicate(db, question, threshold, sim) == IsDuplicate(db, Lower(question), threshold, sim)
  {
    LowerIdempotent(question);
  }

  /** A candidate flagged at threshold `t` is flagged at every lower threshold. */
  lemma DuplicateAntitone(db: Database, question: string, t: real, t': real, sim: Similarity)
    requires t' <= t
    requires IsDuplicate(db, question, t, sim) == Success(true)
    ensures IsDuplicate(db, question, t', sim) == Success(true)
  {
  }

  /** Inserting a row never un-flags a duplicate: the check is an existential over all rows. */
  lemma DuplicateSurvivesInsert(db: Database, question: string, q: string, a: string, c: string,
                                                  threshold: real, sim: Similarity)
    requires IsDuplicate(db, question, threshold, sim) == Success(true)
    requires Insert(db, q, a, c).Success?
    ensures IsDuplicate(Insert(db, q, a, c).value, question, threshold, sim) == Success(true)
  {
  }

  /** A similarity that rates every string as identical to itself. */
  ghost predicate SelfSimilar(sim: Similarity) {
    forall s :: sim(s, s) == 1.0
  }

  /**
   * With a ratio that gives 1.0 for identical strings and a threshold below 1,
   * a candidate the fuzzy check passes is never refused by the UNIQUE constraint:
   * an exactly stored question would have been flagged first.
   */
  lemma PassedCheckInsertSucceeds(db: Database, q: string, a: string, c: string,
                                                    threshold: real, sim: Similarity)
    requires SelfSimilar(sim) && threshold < 1.0
    requires IsDuplicate(db, q, threshold, sim) == Success(false)
    ensures Insert(db, q, a, c).Success?
  {
  }

  /** The test's single-row example: a ratio between 0.7 and 0.9 is flagged at 0.7 but not at 0.9. */
  lemma ThresholdExample(stored: string, candidate: string, sim: Similarity)
    requires 0.7 < sim(Lower(candidate), Lower(stored)) <= 0.9
    ensures var db := Insert(CreateTable(NewDatabase), stored, "", "").value;
            IsDuplicate(db, candidate, 0.7, sim) == Success(true)
            && IsDuplicate(db, candidate, 0.9, sim) == Success(false)
  {
  }

  // ---------------------------------------------------------------------------
  // get_dataset_stats
  // ---------------------------------------------------------------------------

  /** Number of rows whose category is `c`. */
  function CountCategory(rows: seq<Row>, c: string): (n: nat)
    ensures n <= |rows|
  {
    if |rows| == 0 then 0
    else CountCategory(rows[..|rows| - 1], c) + (if rows[|rows| - 1].category == c then 1 else 0)
  }

  /** The categories present in `rows`. */
  function Categories(rows: seq<Row>): set<string> {
    set i | 0 <= i < |rows| :: rows[i].category
  }

  /** `SELECT category, COUNT(*) FROM qa_pairs GROUP BY category`, as a dict. */
  function CategoryCounts(rows: seq<Row>): (m: map<string, nat>)
    ensures m.Keys == Categories(rows)
    ensures forall c :: c in m ==> m[c] == CountCategory(rows, c) && m[c] > 0
  {
    if |rows| == 0 then map[]
    else
      var init := rows[..|rows| - 1];
      var last := rows[|rows| - 1];
      var m := CategoryCounts(init);
      assert Categories(rows) == Categories(init) + {last.category} by {
        forall c | c in Categories(rows) ensures c in Categories(init) + {last.category} {
          var i :| 0 <= i < |rows| && rows[i].category == c;
          if i < |rows| - 1 { assert init[i] == rows[i]; }
        }
        forall c | c in Categories(init) ensures c in Categories(rows) {
          var i :| 0 <= i < |init| && init[i].category == c;
          assert rows[i] == init[i];
        }
      }
      if last.category in m then m[last.category := m[last.category] + 1]
      else
        assert CountCategory(init, last.category) == 0 by { CountAbsent(init, last.category); }
        m[last.category := 1]
  }

  lemma {:induction false} CountAbsent(rows: seq<Row>, c: string)
    requires c !in Categories(rows)
    ensures CountCategory(rows, c) == 0
  {
    if |rows| > 0 {
      var init := rows[..|rows| - 1];
      assert c !in Categories(init) by {
        forall i | 0 <= i < |init| ensures init[i].category != c {
          assert init[i] == rows[i];
        }
      }
      CountAbsent(init, c);
    }
  }

  /** The sum of the values of a count map. */
  ghost function Total(m: map<string, nat>): nat
    decreases |m|
  {
    if |m| == 0 then 0
    else
      var k :| k in m;
      m[k] + Total(m - {k})
  }

  /** `Total` may take the keys in any order. */
  lemma {:induction false} TotalRemove(m: map<string, nat>, k: string)
    requires k in m
    ensures Total(m) == m[k] + Total(m - {k})
    decreases |m|, 1
  {
    assert |m| != 0 by {
      assert m != map[];
    }
    var k' :| k' in m && Total(m) == m[k'] + Total(m - {k'});
    if k' != k {
      TotalSwap(m, k', k);
    }
  }

  /** Taking `k'` first and then `k` gives the same sum as taking `k` first. */
  lemma {:induction false} TotalSwap(m: map<string, nat>, k': string, k: string)
    requires k in m && k' in m && k != k'
    requires Total(m) == m[k'] + Total(m - {k'})
    ensures Total(m) == m[k] + Total(m - {k})
    decreases |m|, 0
  {
    var withoutK' := m - {k'};
    var withoutK := m - {k};
    assert |withoutK'| == |m| - 1;
    assert |withoutK| == |m| - 1;
    TotalRemove(withoutK', k);
    TotalRemove(withoutK, k');
    assert withoutK'[k] == m[k] && withoutK[k'] == m[k'];
    assert withoutK' - {k} == withoutK - {k'} by {
      assert (withoutK' - {k}).Keys == (withoutK - {k'}).Keys;
    }
  }

  lemma {:induction false} TotalUpdate(m: map<string, nat>, k: string, v: nat)
    ensures Total(m[k := v]) == Total(m - {k}) + v
  {
    var m' := m[k := v];
    TotalRemove(m', k);
    assert m' - {k} == m - {k};
  }

  /** The per-category counts add up to the number of rows. */
  lemma {:induction false} CountsSumToRows(rows: seq<Row>)
    ensures Total(CategoryCounts(rows)) == |rows|
  {
    if |rows| > 0 {
      var init := rows[..|rows| - 1];
      var c := rows[|rows| - 1].category;
      var m := CategoryCounts(init);
      CountsSumToRows(init);
      if c in m {
        TotalUpdate(m, c, m[c] + 1);
        TotalRemove(m, c);
      } else {
        TotalUpdate(m, c, 1);
        assert m - {c} == m;
      }
    }
  }

  /** The result of `get_dataset_stats`. */
  datatype Stats = Stats(totalPairs: nat, categoryCounts: map<string, nat>)

  /** `get_dataset_stats`: the row count and the rows per category. */
  function GetDatasetStats(db: Database): (r: Result<Stats, DbError>)
    ensures db.table.None? <==> r == Failure(NoSuchTable)
    ensures r.Success? ==>
      var rows := db.table.value.rows;
      && r.value.totalPairs == |rows|
      && r.value.categoryCounts.Keys == Categories(rows)
      && (forall c :: c in r.value.categoryCounts ==> r.value.categoryCounts[c] == CountCategory(rows, c))
      && Total(r.value.categoryCounts) == r.value.totalPairs
  {
    if db.table.None? then Failure(NoSuchTable)
    else
      var rows := db.table.value.rows;
      CountsSumToRows(rows);
      Success(Stats(|rows|, CategoryCounts(rows)))
  }
}

=== FILE: dataset_creator.dfy ===
/**
 * The batch loop of `create_dataset` and its wrappers. The loop runs over a
 * finite trace of oracle signals, one per evaluation of the loop head: whether
 * the stop event was seen set there and, if the loop went on, which topic
 * `random.choice` picked and what the call to `generate_qa_pair` did. The
 * source loop need not terminate (a duplicate changes neither counter), so a
 * run may also end because the trace is used up.
 */
module DatasetCreator {
  import opened Wrappers
  import opened Database
  import opened RecentCache
  import opened ApiClient

  /** Consecutive errors after which the loop gives up. */
  const MaxErrors: nat := 50

  /** What the call to `generate_qa_pair` in one iteration did. */
  datatype GenStep =
    | Cancelled                        // the stop event was set by the time the call checked it
    | Replied(reply: Option<Response>) // `make_api_request` returned `reply` (`None` after failed retries)
    | Raised                           // an exception escaped the call

  /** One evaluation of the loop head: stop seen, or an iteration with its topic index and generation outcome. */
  datatype Signal = StopSeen | Proceed(pick: nat, gen: GenStep)

  /** One call `progress_callback(generated_count, num_entries)`. */
  datatype Report = Report(done: nat, total: int)

  /** The loop's state: database, recent cache, the two counters, progress calls so far, iterations run. */
  datatype BatchState = BatchState(db: Database, cache: QuestionCache, generated: nat, errors: nat,
                                   progress: seq<Report>, iterations: nat)

  /** Why the loop ended. `NoTopics`: `random.choice([])` raised outside the `try`, so the call raises. */
  datatype Exit = Completed | Stopped | Aborted | TraceEnded | NoTopics

  datatype BatchRun = BatchRun(state: BatchState, exit: Exit)

  /** `question and answer and category`. */
  predicate Truthy(t: Option<Triple>) {
    t.Some? && t.value.question != "" && t.value.answer != "" && t.value.category != ""
  }

  /** The rows of a database that has its table, or none. */
  function Rows(db: Database): seq<Row> {
    if db.table.Some? then db.table.value.rows else []
  }

  /**
   * The part of one iteration after `generate_qa_pair` returned `t`: a falsy
   * triple counts an error; otherwise a duplicate is skipped, a new question is
   * inserted (resetting the error count), and an exception from the check or
   * the insert counts an error without reporting progress.
   */
  function Judge(s: BatchState, t: Option<Triple>, numEntries: int, sim: Similarity): (r: BatchState)
    ensures r.cache == s.cache && r.iterations == s.iterations
    ensures r.errors <= s.errors + 1
    ensures r.generated == s.generated ==>
      r.progress == s.progress || r.progress == s.progress + [Report(r.generated, numEntries)]
    ensures r.generated == s.generated || r.generated == s.generated + 1
    ensures r.generated == s.generated ==> r.db == s.db
    ensures r.generated == s.generated + 1 ==>
      && Truthy(t)
      && IsDuplicate(s.db, t.value.question, DefaultThreshold, sim) == Success(false)
      && Insert(s.db, t.value.question, t.value.answer, t.value.category) == Success(r.db)
      && r.errors == 0
      && r.progress == s.progress + [Report(r.generated, numEntries)]
    // falsy triple: one more error, progress reported
    ensures !Truthy(t) ==>
      r == s.(errors := s.errors + 1, progress := s.progress + [Report(s.generated, numEntries)])
    // duplicate: skipped, error count kept, progress reported
    ensures Truthy(t) && IsDuplicate(s.db, t.value.question, DefaultThreshold, sim) == Success(true) ==>
      r == s.(progress := s.progress + [Report(s.generated, numEntries)])
    // fresh question stored: one more row, errors reset, the new count reported
    ensures Truthy(t) && IsDuplicate(s.db, t.value.question, DefaultThreshold, sim) == Success(false)
            && Insert(s.db, t.value.question, t.value.answer, t.value.category).Success? ==>
      r == s.(db := Insert(s.db, t.value.question, t.value.answer, t.value.category).value,
              generated := s.generated + 1, errors := 0,
              progress := s.progress + [Report(s.generated + 1, numEntries)])
    // an exception from the check or the insert: one more error, no progress report
    ensures Truthy(t) && (IsDuplicate(s.db, t.value.question, DefaultThreshold, sim).Failure?
                          || (IsDuplicate(s.db, t.value.question, DefaultThreshold, sim) == Success(false)
                              && Insert(s.db, t.value.question, t.value.answer, t.value.category).Failure?)) ==>
      r == s.(errors := s.errors + 1)
  {
    if !Truthy(t) then
      s.(errors := s.errors + 1, progress := s.progress + [Report(s.generated, numEntries)])
    else
      var q := t.value;
      match IsDuplicate(s.db, q.question, DefaultThreshold, sim)
      case Failure(_) => s.(errors := s.errors + 1)
      case Success(true) => s.(progress := s.progress + [Report(s.generated, numEntries)])
      case Success(false) =>
        match Insert(s.db, q.question, q.answer, q.category)
        case Failure(_) => s.(errors := s.errors + 1)
        case Success(db') =>
          s.(db := db', generated := s.generated + 1, errors := 0,
             progress := s.progress + [Report(s.generated + 1, numEntries)])
  }

  /** A row the loop may insert after `before`: long enough fields and no similar stored question. */
  ghost predicate AdmittedRow(before: seq<Row>, row: Row, sim: Similarity) {
    && |row.question| > MinQuestionLength
    && |row.answer| > MinAnswerLength
    && row.category != ""
    && !HasSimilar(before, row.question, DefaultThreshold, sim)
  }

  /**
   * One loop body after the head let it run. The error count goes up by one on
   * a falsy triple or an exception, resets to zero after an insert, and stays
   * on a duplicate; progress is reported on every path but the exception path.
   */
  function Iterate(s: BatchState, topics: seq<string>, pick: nat, gen: GenStep, numEntries: int,
                   sim: Similarity): (r: BatchState)
    requires |topics| > 0
    ensures r.iterations == s.iterations + 1
    ensures gen.Raised? ==> r == s.(errors := s.errors + 1, iterations := s.iterations + 1)
    ensures gen.Cancelled? || gen == Replied(None) ==>
      r == s.(errors := s.errors + 1, iterations := s.iterations + 1,
              progress := s.progress + [Report(s.generated, numEntries)])
    ensures r.generated == s.generated || r.generated == s.generated + 1
    ensures r.generated == s.generated ==> r.db == s.db
    ensures r.generated == s.generated + 1 ==>
      && r.errors == 0
      && r.progress == s.progress + [Report(r.generated, numEntries)]
      && s.db.table.Some? && r.db.table.Some?
      && var rows := Rows(s.db);
         var rows' := Rows(r.db);
         |rows'| == |rows| + 1 && rows'[..|rows|] == rows && AdmittedRow(rows, rows'[|rows|], sim)
    ensures r.errors <= s.errors + 1
    ensures r.generated == s.generated ==>
      r.progress == s.progress || r.progress == s.progress + [Report(r.generated, numEntries)]
  {
    match gen
    case Raised => s.(errors := s.errors + 1, iterations := s.iterations + 1)
    case Cancelled => Judge(s.(iterations := s.iterations + 1), None, numEntries, sim)
    case Replied(reply) =>
      var a := Admit(topics[pick % |topics|], reply, s.cache);
      Judge(s.(cache := a.cache, iterations := s.iterations + 1), a.triple, numEntries, sim)
  }

  /**
   * A reply goes through the admission, whose cache the loop keeps whatever
   * happens next. A rejected reply counts an error and reports progress; an
   * admitted duplicate is skipped with progress reported; an exception from
   * the check or the insert counts an error and reports nothing.
   */
  lemma IterateReplyCases(s: BatchState, topics: seq<string>, pick: nat, reply: Option<Response>,
                          numEntries: int, sim: Similarity)
    requires |topics| > 0
    ensures var a := Admit(topics[pick % |topics|], reply, s.cache);
      var r := Iterate(s, topics, pick, Replied(reply), numEntries, sim);
      var s1 := s.(cache := a.cache, iterations := s.iterations + 1);
      && r.cache == a.cache
      && (a.triple.None? ==> r == s1.(errors := s.errors + 1, progress := s.progress + [Report(s.generated, numEntries)]))
      && (a.triple.Some? ==>
            var q := a.triple.value;
            var dup := IsDuplicate(s.db, q.question, DefaultThreshold, sim);
            var ins := Insert(s.db, q.question, q.answer, q.category);
            && (dup == Success(true) ==> r == s1.(progress := s.progress + [Report(s.generated, numEntries)]))
            && (dup.Failure? || (dup == Success(false) && ins.Failure?) ==> r == s1.(errors := s.errors + 1)))
  {
    var a := Admit(topics[pick % |topics|], reply, s.cache);
    var s1 := s.(cache := a.cache, iterations := s.iterations + 1);
    var r := Judge(s1, a.triple, numEntries, sim);
    assert Iterate(s, topics, pick, Replied(reply), numEntries, sim) == r;
    if a.triple.Some? {
      var q := a.triple.value;
      var ins := Insert(s.db, q.question, q.answer, q.category);
      assert Truthy(a.triple);
    }
  }

  /**
   * An admitted triple that is no duplicate and that the table accepts is
   * inserted; the error reset and the progress report then follow from
   * `Iterate`'s own contract.
   */
  lemma IterateReplyInserts(s: BatchState, topics: seq<string>, pick: nat, reply: Option<Response>,
                            numEntries: int, sim: Similarity)
    requires |topics| > 0
    ensures var a := Admit(topics[pick % |topics|], reply, s.cache);
      var r := Iterate(s, topics, pick, Replied(reply), numEntries, sim);
      a.triple.Some? ==>
        var q := a.triple.value;
        var ins := Insert(s.db, q.question, q.answer, q.category);
        IsDuplicate(s.db, q.question, DefaultThreshold, sim) == Success(false) && ins.Success? ==>
          r.db == ins.value && r.generated == s.generated + 1
  {
    var a := Admit(topics[pick % |topics|], reply, s.cache);
    var s1 := s.(cache := a.cache, iterations := s.iterations + 1);
    var r := Judge(s1, a.triple, numEntries, sim);
    assert Iterate(s, topics, pick, Replied(reply), numEntries, sim) == r;
    if a.triple.Some? {
      var q := a.triple.value;
      var ins := Insert(s.db, q.question, q.answer, q.category);
      if IsDuplicate(s.db, q.question, DefaultThreshold, sim) == Success(false) && ins.Success? {
        assert s1.db == s.db && s1.generated == s.generated && s1.progress == s.progress;
        assert Truthy(a.triple);
      }
    }
  }

  /** A row a loop body inserts was not recently generated: the filter's last clause. */
  lemma IterateInsertsNotRecent(s: BatchState, topics: seq<string>, pick: nat, gen: GenStep, numEntries: int,
                                sim: Similarity)
    requires |topics| > 0
    ensures var r := Iterate(s, topics, pick, gen, numEntries, sim);
      r.generated == s.generated + 1 ==> !IsRecent(s.cache, Rows(r.db)[|Rows(s.db)|].question)
  {
    if gen.Replied? {
      AdmittedInsert(s, topics[pick % |topics|], gen.reply, numEntries, sim);
    }
  }

  /** A row the judgement of an admitted reply inserts passed the filter and the duplicate check. */
  lemma AdmittedInsert(s: BatchState, topic: string, reply: Option<Response>, numEntries: int, sim: Similarity)
    ensures var a := Admit(topic, reply, s.cache);
      var r := Judge(s.(cache := a.cache, iterations := s.iterations + 1), a.triple, numEntries, sim);
      r.generated == s.generated + 1 ==>
        && s.db.table.Some? && r.db.table.Some?
        && var rows := Rows(s.db);
           var rows' := Rows(r.db);
           |rows'| == |rows| + 1 && rows'[..|rows|] == rows && AdmittedRow(rows, rows'[|rows|], sim)
           && !IsRecent(s.cache, rows'[|rows|].question)
  {
    var a := Admit(topic, reply, s.cache);
    var r := Judge(s.(cache := a.cache, iterations := s.iterations + 1), a.triple, numEntries, sim);
    if r.generated == s.generated + 1 {
      var t := a.triple.value;
      assert Acceptable(t.question, t.answer, t.category, s.cache);
      assert IsDuplicate(s.db, t.question, DefaultThreshold, sim) == Success(false);
    }
  }

  /** The loop from state `s` over the remaining signals: the reference definition of the `while` loop. */
  function Run(s: BatchState, trace: seq<Signal>, topics: seq<string>, numEntries: int, sim: Similarity): BatchRun
    decreases |trace|
  {
    if s.generated >= numEntries then BatchRun(s, Completed)
    else if |trace| == 0 then BatchRun(s, TraceEnded)
    else match trace[0]
      case StopSeen => BatchRun(s, Stopped)
      case Proceed(pick, gen) =>
        if |topics| == 0 then BatchRun(s, NoTopics)
        else
          var s' := Iterate(s, topics, pick, gen, numEntries, sim);
          if s'.errors >= MaxErrors then BatchRun(s', Aborted)
          else Run(s', trace[1..], topics, numEntries, sim)
  }

  /**
   * How a run ends: it completes exactly when the count reaches the target;
   * it makes at most one iteration per signal, and exactly one per signal when
   * the trace runs out; an empty topic list ends it before any iteration.
   */
  lemma {:induction false} RunEnds(s: BatchState, trace: seq<Signal>, topics: seq<string>, numEntries: int,
                                   sim: Similarity)
    ensures var r := Run(s, trace, topics, numEntries, sim);
      && (r.exit == Completed <==> r.state.generated >= numEntries)
      && s.iterations <= r.state.iterations <= s.iterations + |trace|
      && (r.exit == TraceEnded ==> r.state.iterations == s.iterations + |trace|)
      && (r.exit == NoTopics ==> |topics| == 0 && r.state == s)
    decreases |trace|
  {
    if s.generated < numEntries && |trace| > 0 && trace[0].Proceed? && |topics| > 0 {
      var s' := Iterate(s, topics, trace[0].pick, trace[0].gen, numEntries, sim);
      if s'.errors < MaxErrors {
        RunEnds(s', trace[1..], topics, numEntries, sim);
        assert Run(s, trace, topics, numEntries, sim) == Run(s', trace[1..], topics, numEntries, sim);
      }
    }
  }

  /** The state after `create_table(db_path)` and the counter initialisation. */
  function Start(db: Database, cache: QuestionCache): (s: BatchState)
    ensures s.db.table.Some?
  {
    BatchState(CreateTable(db), cache, 0, 0, [], 0)
  }

  /**
   * What holds of every state the loop reaches from a table holding `base`:
   * the inserted rows follow `base` and each passed admission against the rows
   * before it; progress calls carry `num_entries`, never exceed the count, never
   * decrease, and there is at least one per inserted row.
   */
  ghost predicate Sound(base: seq<Row>, s: BatchState, numEntries: int, sim: Similarity) {
    && s.db.table.Some?
    && var rows := Rows(s.db);
    && |rows| == |base| + s.generated
    && rows[..|base|] == base
    && (forall k :: |base| <= k < |rows| ==> AdmittedRow(rows[..k], rows[k], sim))
    && (forall j :: 0 <= j < |s.progress| ==> s.progress[j].total == numEntries && s.progress[j].done <= s.generated)
    && (forall j :: 0 < j < |s.progress| ==> s.progress[j - 1].done <= s.progress[j].done)
    && s.generated <= |s.progress| <= s.iterations
  }

  /** A step with the shape `Iterate` promises keeps `Sound`. */
  lemma SoundStep(base: seq<Row>, s: BatchState, r: BatchState, numEntries: int, sim: Similarity)
    requires Sound(base, s, numEntries, sim)
    requires r.iterations == s.iterations + 1
    requires r.generated == s.generated || r.generated == s.generated + 1
    requires r.generated == s.generated ==> r.db == s.db
    requires r.generated == s.generated + 1 ==>
      && r.progress == s.progress + [Report(r.generated, numEntries)]
      && r.db.table.Some?
      && var rows := Rows(s.db);
         var rows' := Rows(r.db);
         |rows'| == |rows| + 1 && rows'[..|rows|] == rows && AdmittedRow(rows, rows'[|rows|], sim)
    requires r.generated == s.generated ==>
      r.progress == s.progress || r.progress == s.progress + [Report(r.generated, numEntries)]
    ensures Sound(base, r, numEntries, sim)
  {
    if r.generated == s.generated + 1 {
      var rows := Rows(s.db);
      var rows' := Rows(r.db);
      assert rows'[..|base|] == rows[..|base|];
      forall k | |base| <= k < |rows'| ensures AdmittedRow(rows'[..k], rows'[k], sim) {
        if k < |rows| {
          assert rows'[..k] == rows[..k];
          assert rows'[k] == rows[k];
        } else {
          assert rows'[..k] == rows;
        }
      }
    }
  }

  lemma IterateSound(base: seq<Row>, s: BatchState, topics: seq<string>, pick: nat, gen: GenStep,
                     numEntries: int, sim: Similarity)
    requires |topics| > 0
    requires Sound(base, s, numEntries, sim)
    ensures Sound(base, Iterate(s, topics, pick, gen, numEntries, sim), numEntries, sim)
  {
    SoundStep(base, s, Iterate(s, topics, pick, gen, numEntries, sim), numEntries, sim);
  }

  /** Facts about a whole run, by induction over the trace. */
  lemma {:induction false} RunSound(base: seq<Row>, s: BatchState, trace: seq<Signal>, topics: seq<string>,
                                    numEntries: int, sim: Similarity)
    requires Sound(base, s, numEntries, sim)
    requires s.errors < MaxErrors
    requires s.generated <= (if numEntries > 0 then numEntries else 0)
    ensures var r := Run(s, trace, topics, numEntries, sim);
      && Sound(base, r.state, numEntries, sim)
      && r.state.generated <= (if numEntries > 0 then numEntries else 0)
      && (r.exit == Aborted <==> r.state.errors == MaxErrors)
      && r.state.errors <= MaxErrors
      && r.state.iterations <= s.iterations + |trace|
    decreases |trace|
  {
    if s.generated < numEntries && |trace| > 0 && trace[0].Proceed? && |topics| > 0 {
      var s' := Iterate(s, topics, trace[0].pick, trace[0].gen, numEntries, sim);
      IterateSound(base, s, topics, trace[0].pick, trace[0].gen, numEntries, sim);
      if s'.errors < MaxErrors {
        RunSound(base, s', trace[1..], topics, numEntries, sim);
      }
    }
  }

  // ---------------------------------------------------------------------------
  // create_dataset and its wrappers
  // ---------------------------------------------------------------------------

  /**
   * `create_dataset(num_entries, db_path, topics, progress_callback, stop_event, api_choice)`
   * over the oracle `trace`, with the recent cache as it was before the call.
   */
  method CreateDataset(numEntries: int, db: Database, cache: QuestionCache, topics: seq<string>,
                       trace: seq<Signal>, sim: Similarity) returns (generated: nat, run: BatchRun)
    ensures run == Run(Start(db, cache), trace, topics, numEntries, sim)
    ensures generated == run.state.generated
    ensures generated <= (if numEntries > 0 then numEntries else 0)
    ensures run.exit == Completed <==> generated == (if numEntries > 0 then numEntries else 0)
    ensures run.exit == Aborted <==> run.state.errors == MaxErrors
    ensures run.exit != Aborted ==> run.state.errors < MaxErrors
    ensures run.exit == NoTopics ==> |topics| == 0 && run.state.iterations == 0
    ensures run.exit == Stopped ==> run.state.iterations < |trace| && trace[run.state.iterations] == StopSeen
    ensures run.state.iterations <= |trace|
    ensures var base := Rows(CreateTable(db));
            var rows := Rows(run.state.db);
      && run.state.db.table.Some?
      && |rows| == |base| + generated
      && rows[..|base|] == base
      && (forall k :: |base| <= k < |rows| ==> AdmittedRow(rows[..k], rows[k], sim))
    ensures forall j :: 0 <= j < |run.state.progress| ==>
              run.state.progress[j].total == numEntries && run.state.progress[j].done <= generated
    ensures forall j :: 0 < j < |run.state.progress| ==>
              run.state.progress[j - 1].done <= run.state.progress[j].done
    ensures generated <= |run.state.progress| <= run.state.iterations
  {
    var s := Start(db, cache);
    ghost var base := Rows(s.db);
    assert s.db.table.value.rows[..|base|] == base;
    var i := 0;
    while true
      invariant 0 <= i <= |trace|
      invariant Run(s, trace[i..], topics, numEntries, sim) == Run(Start(db, cache), trace, topics, numEntries, sim)
      invariant Sound(base, s, numEntries, sim)
      invariant s.errors < MaxErrors
      invariant s.iterations == i
      invariant s.generated <= (if numEntries > 0 then numEntries else 0)
      invariant s.generated > 0 ==> |topics| > 0
      decreases |trace| - i
    {
      if s.generated >= numEntries {
        run := BatchRun(s, Completed);
        break;
      }
      if i == |trace| {
        run := BatchRun(s, TraceEnded);
        break;
      }
      var signal := trace[i];
      if signal.StopSeen? {
        run := BatchRun(s, Stopped);
        break;
      }
      if |topics| == 0 {
        run := BatchRun(s, NoTopics);
        break;
      }
      IterateSound(base, s, topics, signal.pick, signal.gen, numEntries, sim);
      assert trace[i..][1..] == trace[i + 1..];
      s := Iterate(s, topics, signal.pick, signal.gen, numEntries, sim);
      i := i + 1;
      if s.errors >= MaxErrors {
        run := BatchRun(s, Aborted);
        break;
      }
    }
    generated := run.state.generated;
  }

  /** `generate_dataset_batch`: the same loop for `batch_size` entries. */
  method GenerateDatasetBatch(batchSize: int, db: Database, cache: QuestionCache, topics: seq<string>,
                              trace: seq<Signal>, sim: Similarity) returns (generated: nat, run: BatchRun)
    ensures run == Run(Start(db, cache), trace, topics, batchSize, sim)
    ensures generated == run.state.generated
    ensures generated <= (if batchSize > 0 then batchSize else 0)
  {
    generated, run := CreateDataset(batchSize, db, cache, topics, trace, sim);
  }

  /**
   * `resume_dataset_creation(total_entries, current_entries, ...)`: nothing to
   * do when the target is reached; otherwise a run for the difference, whose
   * count is added to `current_entries`.
   */
  method ResumeDatasetCreation(totalEntries: int, currentEntries: int, db: Database, cache: QuestionCache,
                               topics: seq<string>, trace: seq<Signal>, sim: Similarity)
    returns (total: int, run: Option<BatchRun>)
    ensures totalEntries - currentEntries <= 0 ==> total == currentEntries && run.None?
    ensures totalEntries - currentEntries > 0 ==>
      && run.Some?
      && total == currentEntries + run.value.state.generated
      && currentEntries <= total <= totalEntries
      && (total == totalEntries <==> run.value.exit == Completed)
      && |Rows(run.value.state.db)| == |Rows(CreateTable(db))| + (total - currentEntries)
  {
    if totalEntries - currentEntries <= 0 {
      total, run := currentEntries, None;
    } else {
      var generated, r := CreateDataset(totalEntries - currentEntries, db, cache, topics, trace, sim);
      total, run := currentEntries + generated, Some(r);
    }
  }

  /** `get_generation_progress`: the number of stored rows. */
  function GetGenerationProgress(db: Database): (r: Result<nat, DbError>)
    ensures db.table.None? <==> r == Failure(NoSuchTable)
    ensures r.Success? ==> r.value == |db.table.value.rows|
  {
    match GetDatasetStats(db)
    case Failure(e) => Failure(e)
    case Success(stats) => Success(stats.totalPairs)
  }

  // ---------------------------------------------------------------------------
  // Properties of runs
  // ---------------------------------------------------------------------------

  /** Once the loop head sees the stop event set, no further iteration runs. */
  lemma {:induction false} StopHalts(s: BatchState, trace: seq<Signal>, topics: seq<string>, numEntries: int,
                                     sim: Similarity, j: nat)
    requires j < |trace| && trace[j] == StopSeen
    ensures Run(s, trace, topics, numEntries, sim).state.iterations <= s.iterations + j
    ensures Run(s, trace, topics, numEntries, sim).state.generated <= s.generated + j
    decreases |trace|
  {
    if s.generated < numEntries && j > 0 && trace[0].Proceed? && |topics| > 0 {
      var s' := Iterate(s, topics, trace[0].pick, trace[0].gen, numEntries, sim);
      if s'.errors < MaxErrors {
        StopHalts(s', trace[1..], topics, numEntries, sim, j - 1);
      }
    }
  }

  /** A generation outcome that yields no triple. */
  predicate Fails(signal: Signal) {
    signal.Proceed? && (signal.gen.Raised? || signal.gen.Cancelled? || signal.gen == Replied(None))
  }

  /**
   * Circuit breaker: with only failing outcomes the loop makes exactly as many
   * iterations as are left before the error count reaches 50, inserts nothing
   * and ends aborted.
   */
  lemma {:induction false} FailingRunAborts(s: BatchState, trace: seq<Signal>, topics: seq<string>,
                                            numEntries: int, sim: Similarity)
    requires |topics| > 0 && s.generated < numEntries && s.errors < MaxErrors
    requires |trace| >= MaxErrors - s.errors
    requires forall i :: 0 <= i < |trace| ==> Fails(trace[i])
    ensures var r := Run(s, trace, topics, numEntries, sim);
      && r.exit == Aborted
      && r.state.errors == MaxErrors
      && r.state.iterations == s.iterations + (MaxErrors - s.errors)
      && r.state.generated == s.generated
      && r.state.db == s.db
    decreases MaxErrors - s.errors
  {
    var s' := Iterate(s, topics, trace[0].pick, trace[0].gen, numEntries, sim);
    assert s'.errors == s.errors + 1 && s'.generated == s.generated && s'.db == s.db;
    if s'.errors < MaxErrors {
      FailingRunAborts(s', trace[1..], topics, numEntries, sim);
    }
  }

  /** An always-failing generator: 50 iterations, nothing inserted, result 0. */
  lemma AlwaysFailingGenerator(db: Database, cache: QuestionCache, trace: seq<Signal>, topics: seq<string>,
                               numEntries: int, sim: Similarity)
    requires |topics| > 0 && numEntries > 0
    requires |trace| >= MaxErrors
    requires forall i :: 0 <= i < |trace| ==> Fails(trace[i])
    ensures var r := Run(Start(db, cache), trace, topics, numEntries, sim);
      && r.exit == Aborted
      && r.state.iterations == MaxErrors
      && r.state.generated == 0
      && Rows(r.state.db) == Rows(CreateTable(db))
  {
    FailingRunAborts(Start(db, cache), trace, topics, numEntries, sim);
  }
}

=== FILE: export.dfy ===
/**
 * `export_to_json`: every stored row becomes one JSON line with the
 * newlines of its question and answer replaced by spaces, and the progress
 * callback fires every 100 records and on the last one. Writing the file and
 * the JSON encoding itself are not modelled.
 */
module Export {
  import opened Wrappers
  import opened Database

  /** One exported JSON object. */
  datatype Record = Record(id: nat, question: string, answer: string, category: string)

  /** One call `progress_callback(done, total)`. */
  datatype Progress = Progress(done: nat, total: nat)

  /** What the export produced: the records in file order and the progress calls in call order. */
  datatype Exported = Exported(records: seq<Record>, calls: seq<Progress>)

  /** Records between two progress calls. */
  const ProgressEvery: nat := 100

  /** `s.replace('\n', ' ')`. */
  function ReplaceNewlines(s: string): string {
    seq(|s|, i requires 0 <= i < |s| => if s[i] == '\n' then ' ' else s[i])
  }

  /** No newline left after the replacement, every other character kept in place. */
  lemma ReplaceNewlinesCleans(s: string)
    ensures |ReplaceNewlines(s)| == |s|
    ensures forall i :: 0 <= i < |s| && s[i] != '\n' ==> ReplaceNewlines(s)[i] == s[i]
    ensures '\n' !in ReplaceNewlines(s)
    ensures '\n' !in s ==> ReplaceNewlines(s) == s
    ensures ReplaceNewlines(ReplaceNewlines(s)) == ReplaceNewlines(s)
  {
  }

  /** The record written for a row. */
  function ToRecord(row: Row): Record {
    Record(row.id, ReplaceNewlines(row.question), ReplaceNewlines(row.answer), row.category)
  }

  /** The export reports progress after record `i` (1-based) of `n`. */
  predicate Reports(i: nat, n: nat) {
    i % ProgressEvery == 0 || i == n
  }

  /** Progress calls strictly increase in their first argument. */
  predicate Increasing(calls: seq<Progress>) {
    forall j :: 0 < j < |calls| ==> calls[j - 1].done < calls[j].done
  }

  /** Counting the multiples of 100 one number further. */
  lemma CountStep(k: nat)
    ensures (k + 1) / 100 == k / 100 + (if (k + 1) % 100 == 0 then 1 else 0)
  {
  }

  /** The number of 1-based indices up to `n` at which progress is reported. */
  lemma CountAtEnd(n: nat)
    ensures n / 100 + (if n % 100 != 0 then 1 else 0) == (n + ProgressEvery - 1) / ProgressEvery
  {
  }

  /** The calls made after records `1..k` of `n`: one for each index that reports, in order. */
  function Schedule(k: nat, n: nat): seq<Progress> {
    if k == 0 then [] else Schedule(k - 1, n) + (if Reports(k, n) then [Progress(k, n)] else [])
  }

  /** Below the end only the multiples of 100 report; at the end, `n` itself too. */
  lemma {:induction false} ScheduleLength(k: nat, n: nat)
    requires k <= n
    ensures |Schedule(k, n)| == k / 100 + (if k == n && n % 100 != 0 then 1 else 0)
  {
    if k > 0 {
      ScheduleLength(k - 1, n);
      CountStep(k - 1);
    }
  }

  /** Every call is `(i, n)` for a reporting index `i` in `1..k`, and the indices increase. */
  lemma {:induction false} ScheduleSound(k: nat, n: nat)
    ensures Increasing(Schedule(k, n))
    ensures forall j :: 0 <= j < |Schedule(k, n)| ==>
              Schedule(k, n)[j].total == n && 1 <= Schedule(k, n)[j].done <= k && Reports(Schedule(k, n)[j].done, n)
  {
    if k > 0 {
      ScheduleSound(k - 1, n);
    }
  }

  /** Every reporting index in `1..k` has its call. */
  lemma {:induction false} ScheduleComplete(k: nat, n: nat)
    ensures forall i: nat :: 1 <= i <= k && Reports(i, n) ==> Progress(i, n) in Schedule(k, n)
  {
    if k > 0 {
      ScheduleComplete(k - 1, n);
      var before := Schedule(k - 1, n);
      forall i: nat | 1 <= i <= k && Reports(i, n) ensures Progress(i, n) in Schedule(k, n) {
        if i < k {
          assert Progress(i, n) in before;
        }
      }
    }
  }

  /** The calls `progress_callback(i, n)` made while exporting `n` records, in order. */
  method ProgressCalls(n: nat) returns (calls: seq<Progress>)
    ensures |calls| == (n + ProgressEvery - 1) / ProgressEvery
    ensures Increasing(calls)
    ensures forall j :: 0 <= j < |calls| ==> calls[j].total == n && 1 <= calls[j].done <= n && Reports(calls[j].done, n)
    ensures forall i: nat :: 1 <= i <= n && Reports(i, n) ==> Progress(i, n) in calls
    ensures n == 0 <==> calls == []
    ensures n > 0 ==> calls[|calls| - 1] == Progress(n, n)
  {
    calls := [];
    var i := 1;
    while i <= n
      invariant 1 <= i <= n + 1
      invariant calls == Schedule(i - 1, n)
    {
      if i % ProgressEvery == 0 || i == n {
        calls := calls + [Progress(i, n)];
      }
      i := i + 1;
    }
    ScheduleLength(n, n);
    CountAtEnd(n);
    ScheduleSound(n, n);
    ScheduleComplete(n, n);
  }

  /** `export_to_json(db_path, json_path, progress_callback)`: the records written and the progress calls made. */
  method ExportToJson(db: Database) returns (r: Result<Exported, DbError>)
    ensures db.table.None? <==> r == Failure(NoSuchTable)
    ensures r.Success? ==>
      var rows := db.table.value.rows;
      var n := |rows|;
      && |r.value.records| == n
      && (forall i :: 0 <= i < n ==>
            && r.value.records[i].id == rows[i].id
            && r.value.records[i].category == rows[i].category
            && r.value.records[i].question == ReplaceNewlines(rows[i].question)
            && r.value.records[i].answer == ReplaceNewlines(rows[i].answer)
            && '\n' !in r.value.records[i].question
            && '\n' !in r.value.records[i].answer)
    ensures r.Success? ==>
      var n := |db.table.value.rows|;
      && |r.value.calls| == (n + ProgressEvery - 1) / ProgressEvery
      && (n > 0 ==> r.value.calls[|r.value.calls| - 1] == Progress(n, n))
      && Increasing(r.value.calls)
      && (forall j :: 0 <= j < |r.value.calls| ==>
            r.value.calls[j].total == n && 1 <= r.value.calls[j].done <= n && Reports(r.value.calls[j].done, n))
      && (forall i: nat :: 1 <= i <= n && Reports(i, n) ==> Progress(i, n) in r.value.calls)
  {
    var pairs := GetAllQaPairs(db);
    if pairs.Failure? {
      return Failure(pairs.error);
    }
    var rows := pairs.value;
    var records := seq(|rows|, i requires 0 <= i < |rows| => ToRecord(rows[i]));
    forall j | 0 <= j < |rows|
      ensures '\n' !in records[j].question && '\n' !in records[j].answer
    {
      ReplaceNewlinesCleans(rows[j].question);
      ReplaceNewlinesCleans(rows[j].answer);
    }
    var calls := ProgressCalls(|rows|);
    return Success(Exported(records, calls));
  }
}

=== FILE: extraction.dfy ===
/**
 * The field scan of `generate_qa_pair`: for each label the search
 * `Label:\s*(.*?)(?:\n(?:Question|Answer|Category):|$)` with DOTALL and
 * IGNORECASE, followed by `strip()`. The regex is written out as a scan:
 * the first case-insensitive `Label:`, then greedy whitespace, then a lazy
 * capture up to the first boundary, where `$` (no MULTILINE) matches at the
 * end of the text and just before a final newline.
 */
module Extraction {
  import opened Wrappers
  import opened Text

  const QuestionLabel: string := "Question"
  const AnswerLabel: string := "Answer"
  const CategoryLabel: string := "Category"

  /** `label:` starts at index `i` of `text`, ignoring ASCII case. */
  predicate LabelAt(text: string, name: string, i: nat) {
    i + |name| + 1 <= |text| && Lower(text[i..i + |name| + 1]) == Lower(name + ":")
  }

  /** One of the three labels, with its colon, starts at `i`. */
  predicate AnyLabelAt(text: string, i: nat) {
    LabelAt(text, QuestionLabel, i) || LabelAt(text, AnswerLabel, i) || LabelAt(text, CategoryLabel, i)
  }

  /** `\n` followed by a label starts at `j`. */
  predicate NewlineLabelAt(text: string, j: nat) {
    j < |text| && text[j] == '\n' && AnyLabelAt(text, j + 1)
  }

  /** The lazy capture may stop at `p`: a newline-label follows, or `$` matches there. */
  predicate BoundaryAt(text: string, p: nat) {
    p <= |text| && (p == |text| || (p == |text| - 1 && text[p] == '\n') || NewlineLabelAt(text, p))
  }

  /** The first `label:` at or after `from`. */
  function FindLabel(text: string, name: string, from: nat): (r: Option<nat>)
    ensures r.Some? ==> from <= r.value && LabelAt(text, name, r.value)
    ensures r.Some? ==> forall j: nat :: from <= j < r.value ==> !LabelAt(text, name, j)
    ensures r.None? ==> forall j: nat :: from <= j ==> !LabelAt(text, name, j)
    decreases |text| - from
  {
    if from + |name| + 1 > |text| then None
    else if LabelAt(text, name, from) then Some(from)
    else FindLabel(text, name, from + 1)
  }

  /** The first boundary at or after `s`: where the lazy `(.*?)` ends. */
  function FindBoundary(text: string, s: nat): (p: nat)
    requires s <= |text|
    ensures s <= p <= |text| && BoundaryAt(text, p)
    ensures forall j: nat :: s <= j < p ==> !BoundaryAt(text, j)
    decreases |text| - s
  {
    if BoundaryAt(text, s) then s else FindBoundary(text, s + 1)
  }

  /** A label found in a piece of `text` is found in `text` at the shifted index. */
  lemma LabelInPiece(text: string, o: nat, v: string, k: nat, name: string)
    requires o + |v| <= |text| && v == text[o..o + |v|]
    ensures LabelAt(v, name, k) ==> LabelAt(text, name, o + k)
  {
    var n := |name| + 1;
    if k + n <= |v| {
      var inPiece := v[k..k + n];
      var inText := text[o + k..o + k + n];
      forall t | 0 <= t < n ensures inPiece[t] == inText[t] {
        assert v[k + t] == text[o + k + t];
      }
      assert inPiece == inText;
    }
  }

  /** A newline in a piece of `text` that starts no boundary in `text` starts no newline-label in the piece. */
  lemma NoNewlineLabelAtIndex(text: string, o: nat, v: string, j: nat)
    requires o + |v| <= |text| && v == text[o..o + |v|]
    requires j < |v| && !BoundaryAt(text, o + j)
    ensures !NewlineLabelAt(v, j)
  {
    if v[j] == '\n' {
      LabelInPiece(text, o, v, j + 1, QuestionLabel);
      LabelInPiece(text, o, v, j + 1, AnswerLabel);
      LabelInPiece(text, o, v, j + 1, CategoryLabel);
      assert text[o + j] == '\n';
    }
  }

  /** A piece of `text[s..p]` holds no newline-label when no boundary lies in `[s, p)`. */
  lemma NoNewlineLabelInPiece(text: string, s: nat, p: nat, o: nat, v: string)
    requires s <= o && o + |v| <= p <= |text| && v == text[o..o + |v|]
    requires forall j: nat :: s <= j < p ==> !BoundaryAt(text, j)
    ensures forall j: nat :: !NewlineLabelAt(v, j)
  {
    forall j: nat ensures !NewlineLabelAt(v, j) {
      if j < |v| {
        NoNewlineLabelAtIndex(text, o, v, j);
      }
    }
  }

  /**
   * `match.group(1).strip()` for a label at `i`: the text from past the
   * whitespace after `label:` to the first boundary, stripped.
   */
  function Capture(text: string, name: string, i: nat): (v: string)
    requires i + |name| + 1 <= |text|
    ensures Stripped(v)
    ensures forall j: nat :: !NewlineLabelAt(v, j)
  {
    var s := SkipSpace(text, i + |name| + 1);
    var p := FindBoundary(text, s);
    StrippedCaptureClean(text, s, p);
    Strip(text[s..p])
  }

  /** Stripping a capture that crosses no boundary leaves no newline-label. */
  lemma StrippedCaptureClean(text: string, s: nat, p: nat)
    requires s <= p <= |text|
    requires forall j: nat :: s <= j < p ==> !BoundaryAt(text, j)
    ensures forall j: nat :: !NewlineLabelAt(Strip(text[s..p]), j)
  {
    var raw := text[s..p];
    var v := Strip(raw);
    var a: nat :| TrimmedAt(raw, v, a);
    assert OccursAt(raw, v, a);
    SliceOfSlice(text, s, p, a, |v|);
    NoNewlineLabelInPiece(text, s, p, s + a, v);
  }

  /** A piece of a slice is a slice of the whole. */
  lemma SliceOfSlice(text: string, s: nat, p: nat, a: nat, n: nat)
    requires s <= p <= |text| && a + n <= p - s
    ensures text[s..p][a..a + n] == text[s + a..s + a + n]
  {
    var inner := text[s..p][a..a + n];
    var outer := text[s + a..s + a + n];
    forall k | 0 <= k < n ensures inner[k] == outer[k] {
      assert inner[k] == text[s..p][a + k] == text[s + a + k];
    }
  }

  /**
   * `re.search(...)` and `match.group(1).strip()` for one label: nothing when
   * the label is absent, otherwise a stripped value with no newline-label in it.
   */
  function ExtractField(text: string, name: string): (r: Option<string>)
    ensures r.None? <==> forall i: nat :: !LabelAt(text, name, i)
    ensures r.Some? ==> Stripped(r.value)
    ensures r.Some? ==> forall j: nat :: !NewlineLabelAt(r.value, j)
  {
    match FindLabel(text, name, 0)
    case None => None
    case Some(i) => Some(Capture(text, name, i))
  }

  /**
   * The value of a field is the stripped text between the end of the
   * whitespace after the FIRST `label:` and the FIRST boundary after that.
   */
  lemma ExtractFieldIsFirstMatch(text: string, name: string, i: nat, p: nat)
    requires LabelAt(text, name, i)
    requires forall j: nat :: j < i ==> !LabelAt(text, name, j)
    requires var s := SkipSpace(text, i + |name| + 1);
             && s <= p && BoundaryAt(text, p)
             && forall j: nat :: s <= j < p ==> !BoundaryAt(text, j)
    ensures ExtractField(text, name) == Some(Strip(text[SkipSpace(text, i + |name| + 1)..p]))
  {
    FirstLabelIs(text, name, i);
    FirstBoundaryIs(text, SkipSpace(text, i + |name| + 1), p);
    CaptureUpTo(text, name, i, p);
  }

  /** The capture once the boundary search is known to stop at `p`. */
  lemma CaptureUpTo(text: string, name: string, i: nat, p: nat)
    requires i + |name| + 1 <= |text|
    requires var s := SkipSpace(text, i + |name| + 1); s <= p <= |text| && FindBoundary(text, s) == p
    ensures Capture(text, name, i) == Strip(text[SkipSpace(text, i + |name| + 1)..p])
  {
  }

  /** The label search finds the first label. */
  lemma FirstLabelIs(text: string, name: string, i: nat)
    requires LabelAt(text, name, i)
    requires forall j: nat :: j < i ==> !LabelAt(text, name, j)
    ensures FindLabel(text, name, 0) == Some(i)
  {
  }

  /** The boundary search finds the first boundary. */
  lemma FirstBoundaryIs(text: string, s: nat, p: nat)
    requires s <= p && BoundaryAt(text, p)
    requires forall j: nat :: s <= j < p ==> !BoundaryAt(text, j)
    ensures FindBoundary(text, s) == p
  {
  }

  /** The three fields of a response; an absent field is `None`. */
  datatype Fields = Fields(question: Option<string>, answer: Option<string>, category: Option<string>)

  /** `v` is what the scan for `name` may yield: absent iff the label is, else stripped and free of newline-labels. */
  ghost predicate FieldOf(text: string, name: string, v: Option<string>) {
    && (v.None? <==> forall i: nat :: !LabelAt(text, name, i))
    && (v.Some? ==> Stripped(v.value) && forall j: nat :: !NewlineLabelAt(v.value, j))
  }

  /** The extraction loop over `['Question', 'Answer', 'Category']`: each field is scanned on its own. */
  function ExtractFields(text: string): (f: Fields)
    ensures FieldOf(text, QuestionLabel, f.question)
    ensures FieldOf(text, AnswerLabel, f.answer)
    ensures FieldOf(text, CategoryLabel, f.category)
  {
    Fields(ExtractField(text, QuestionLabel), ExtractField(text, AnswerLabel), ExtractField(text, CategoryLabel))
  }

  /** The sample reply of `EmptyQuestionSwallowsAnswer`: an empty question line, then the answer. */
  const EmptyQuestionReply: string := "Question:\nAnswer: 42"

  lemma SampleFacts()
    ensures LabelAt(EmptyQuestionReply, QuestionLabel, 0)
    ensures SkipSpace(EmptyQuestionReply, |QuestionLabel| + 1) == 10
    ensures forall j: nat :: 10 <= j < |EmptyQuestionReply| ==> !BoundaryAt(EmptyQuestionReply, j)
    ensures EmptyQuestionReply[10..|EmptyQuestionReply|] == "Answer: 42"
  {
  }

  lemma StripClean()
    ensures Strip("Answer: 42") == "Answer: 42"
  {
  }

  /**
   * An empty field swallows the next one: the greedy `\s*` after `Question:`
   * also eats the newline before `Answer:`, so the newline-label can no longer
   * end the capture and the question becomes the answer line.
   */
  lemma EmptyQuestionSwallowsAnswer()
    ensures ExtractField(EmptyQuestionReply, QuestionLabel) == Some("Answer: 42")
  {
    SampleFacts();
    StripClean();
    ExtractFieldIsFirstMatch(EmptyQuestionReply, QuestionLabel, 0, |EmptyQuestionReply|);
  }
}

=== FILE: recent_cache.dfy ===
/**
 * `QuestionCache`: a `deque(maxlen=max_size)` of question keys. A key is the
 * lower-cased question (the md5 digest of it in the source; digest collisions
 * are not modelled).
 */
module RecentCache {
  import opened Text

  /** The deque's capacity and its contents, oldest first. */
  datatype QuestionCache = QuestionCache(maxSize: nat, keys: seq<string>)

  /** Capacity used by the process-wide cache. */
  const DefaultMaxSize: nat := 1000

  /** The key a question is stored under. */
  function Key(question: string): string {
    Lower(question)
  }

  /** `QuestionCache(max_size)`. */
  function Empty(maxSize: nat): QuestionCache {
    QuestionCache(maxSize, [])
  }

  /** The last `n` elements of `s` (all of `s` when it is shorter). */
  function Last<T>(s: seq<T>, n: nat): (r: seq<T>)
    ensures |r| == if |s| <= n then |s| else n
    ensures r == s[|s| - |r|..]
  {
    if |s| <= n then s else s[|s| - n..]
  }

  /** A bounded deque never holds more than its capacity. */
  predicate Valid(c: QuestionCache) {
    |c.keys| <= c.maxSize
  }

  /** `add(question)`: append the key; a full deque drops its oldest key. */
  function Add(c: QuestionCache, question: string): (r: QuestionCache)
    ensures r.maxSize == c.maxSize
    ensures Valid(r)
    ensures c.maxSize > 0 ==> |r.keys| > 0 && r.keys[|r.keys| - 1] == Key(question)
    ensures Valid(c) && |c.keys| < c.maxSize ==> r.keys == c.keys + [Key(question)]
    ensures Valid(c) && |c.keys| == c.maxSize ==> r.keys == (c.keys + [Key(question)])[1..]
  {
    var all := c.keys + [Key(question)];
    var kept := Last(all, c.maxSize);
    assert c.maxSize > 0 ==> kept[|kept| - 1] == all[|all| - 1];
    QuestionCache(c.maxSize, kept)
  }

  /** `is_recent(question)`. */
  predicate IsRecent(c: QuestionCache, question: string) {
    Key(question) in c.keys
  }

  /** Right after `add(q)` every spelling of `q` that lower-cases alike is recent. */
  lemma AddThenRecent(c: QuestionCache, q: string, q': string)
    requires c.maxSize > 0
    requires Lower(q') == Lower(q)
    ensures IsRecent(Add(c, q), q')
  {
  }

  /** The keys of a sequence of added questions, in order. */
  function Keys(history: seq<string>): (ks: seq<string>)
    ensures |ks| == |history|
    ensures forall i :: 0 <= i < |history| ==> ks[i] == Key(history[i])
  {
    seq(|history|, i requires 0 <= i < |history| => Key(history[i]))
  }

  /** The cache after adding `history` in order. */
  function AddAll(c: QuestionCache, history: seq<string>): QuestionCache
    decreases |history|
  {
    if |history| == 0 then c else Add(AddAll(c, history[..|history| - 1]), history[|history| - 1])
  }

  lemma KeysSnoc(history: seq<string>)
    requires |history| > 0
    ensures Keys(history) == Keys(history[..|history| - 1]) + [Key(history[|history| - 1])]
  {
  }

  /** Trimming before appending and trimming after give the same window. */
  lemma LastOfLast<T>(s: seq<T>, x: T, n: nat)
    ensures Last(Last(s, n) + [x], n) == Last(s + [x], n)
  {
  }

  /** A cache that started empty holds exactly the keys of the last `maxSize` questions added, oldest first. */
  lemma {:induction false} HoldsLastAdded(maxSize: nat, history: seq<string>)
    ensures AddAll(Empty(maxSize), history).keys == Last(Keys(history), maxSize)
    ensures AddAll(Empty(maxSize), history).maxSize == maxSize
  {
    if |history| > 0 {
      var init := history[..|history| - 1];
      var k := Key(history[|history| - 1]);
      var c := AddAll(Empty(maxSize), init);
      HoldsLastAdded(maxSize, init);
      assert AddAll(Empty(maxSize), history) == Add(c, history[|history| - 1]);
      assert Add(c, history[|history| - 1]).keys == Last(c.keys + [k], maxSize);
      KeysSnoc(history);
      LastOfLast(Keys(init), k, maxSize);
    }
  }

  /** Recent exactly when the key is among the last `maxSize` keys added. */
  lemma RecentIffInWindow(maxSize: nat, history: seq<string>, q: string)
    ensures IsRecent(AddAll(Empty(maxSize), history), q) <==> Key(q) in Last(Keys(history), maxSize)
  {
    HoldsLastAdded(maxSize, history);
  }

  /** The last `n` keys of `h` miss `q` when no question from position `from` on has its key. */
  lemma KeyNotInWindow(h: seq<string>, n: nat, q: string, from: nat)
    requires from + n <= |h|
    requires forall k :: from <= k < |h| ==> Key(h[k]) != Key(q)
    ensures Key(q) !in Last(Keys(h), n)
  {
  }

  /**
   * FIFO eviction: once `maxSize` further questions with a different key were
   * added after `q`, `q` is no longer recent.
   */
  lemma {:induction false} EvictedAfterCapacityAdds(maxSize: nat, before: seq<string>, q: string, after: seq<string>)
    requires |after| >= maxSize
    requires forall i :: 0 <= i < |after| ==> Key(after[i]) != Key(q)
    ensures !IsRecent(AddAll(Empty(maxSize), before + [q] + after), q)
  {
    var prefix := before + [q];
    var h := prefix + after;
    forall k | |prefix| <= k < |h| ensures Key(h[k]) != Key(q) {
      assert h[k] == after[k - |prefix|];
    }
    KeyNotInWindow(h, maxSize, q, |prefix|);
    HoldsLastAdded(maxSize, h);
  }

  /** A question stays recent while fewer than `maxSize` further questions have been added after it. */
  lemma StaysRecentWithinCapacity(maxSize: nat, before: seq<string>, q: string, after: seq<string>)
    requires |after| < maxSize
    ensures IsRecent(AddAll(Empty(maxSize), before + [q] + after), q)
  {
    var h := before + [q] + after;
    HoldsLastAdded(maxSize, h);
    var w := Last(Keys(h), maxSize);
    assert Keys(h)[|before|] == Key(q);
    assert w[|before| - (|h| - |w|)] == Key(q);
  }

  /**
   * The process-wide `QuestionCache()`: a question is still recent after up
   * to 999 further adds, and no longer recent after 1000 adds of other questions.
   */
  lemma DefaultCacheWindow(before: seq<string>, q: string, after: seq<string>)
    ensures |after| < DefaultMaxSize ==> IsRecent(AddAll(Empty(DefaultMaxSize), before + [q] + after), q)
    ensures |after| >= DefaultMaxSize && (forall i :: 0 <= i < |after| ==> Key(after[i]) != Key(q)) ==>
              !IsRecent(AddAll(Empty(DefaultMaxSize), before + [q] + after), q)
  {
    if |after| < DefaultMaxSize {
      StaysRecentWithinCapacity(DefaultMaxSize, before, q, after);
    } else if forall i :: 0 <= i < |after| ==> Key(after[i]) != Key(q) {
      EvictedAfterCapacityAdds(DefaultMaxSize, before, q, after);
    }
  }
}

=== FILE: text.dfy ===
/**
 * Character and string helpers with the meaning Python gives them, restricted
 * to ASCII: `str.isspace`, `str.lower`, `str.strip`, `str.capitalize` and the
 * substring test `w in s`.
 */
module Text {

  /** Python's `str.isspace` on ASCII; it is also what `\s` matches in a str regex. */
  predicate IsSpace(c: char) {
    c == ' ' || c == '\t' || c == '\n' || c == '\r' || c == '\U{B}' || c == '\U{C}'
    || c == '\U{1C}' || c == '\U{1D}' || c == '\U{1E}' || c == '\U{1F}'
  }

  predicate IsUpper(c: char) {
    'A' <= c <= 'Z'
  }

  predicate IsLower(c: char) {
    'a' <= c <= 'z'
  }

  function LowerChar(c: char): (r: char)
    ensures !IsUpper(r)
    ensures IsUpper(c) ==> IsLower(r)
    ensures !IsUpper(c) ==> r == c
  {
    if IsUpper(c) then (c as int + 32) as char else c
  }

  function UpperChar(c: char): (r: char)
    ensures !IsLower(r)
    ensures IsLower(c) ==> IsUpper(r) && LowerChar(r) == c
    ensures !IsLower(c) ==> r == c
  {
    if IsLower(c) then (c as int - 32) as char else c
  }

  /** `s.lower()`: every ASCII capital replaced by its small letter. */
  function Lower(s: string): (r: string)
    ensures |r| == |s|
    ensures forall i :: 0 <= i < |s| ==> r[i] == LowerChar(s[i])
  {
    seq(|s|, i requires 0 <= i < |s| => LowerChar(s[i]))
  }

  lemma LowerIdempotent(s: string)
    ensures Lower(Lower(s)) == Lower(s)
  {
  }

  /** `s.capitalize()`: first character upper-cased, the rest lower-cased. */
  function Capitalize(s: string): (r: string)
    ensures |r| == |s|
    ensures |s| > 0 ==> r[0] == UpperChar(s[0])
    ensures forall i :: 0 < i < |s| ==> r[i] == LowerChar(s[i])
  {
    if |s| == 0 then "" else [UpperChar(s[0])] + Lower(s[1..])
  }

  /** `w` occurs in `s` starting at index `i`. */
  predicate OccursAt(s: string, w: string, i: nat) {
    i + |w| <= |s| && s[i..i + |w|] == w
  }

  /** `w in s` for strings: `w` occurs as a contiguous piece of `s`. */
  predicate Contains(s: string, w: string) {
    exists i: nat :: i <= |s| && OccursAt(s, w, i)
  }

  /** The end of the run of whitespace that starts at `k` (a greedy `\s*`). */
  function SkipSpace(s: string, k: nat): (r: nat)
    requires k <= |s|
    ensures k <= r <= |s|
    ensures forall j :: k <= j < r ==> IsSpace(s[j])
    ensures r == |s| || !IsSpace(s[r])
    decreases |s| - k
  {
    if k < |s| && IsSpace(s[k]) then SkipSpace(s, k + 1) else k
  }

  /** Moves `j` left over trailing whitespace, never below `lo`. */
  function TrimEnd(s: string, lo: nat, j: nat): (r: nat)
    requires lo <= j <= |s|
    ensures lo <= r <= j
    ensures forall k :: r <= k < j ==> IsSpace(s[k])
    ensures r == lo || !IsSpace(s[r - 1])
    decreases j
  {
    if j > lo && IsSpace(s[j - 1]) then TrimEnd(s, lo, j - 1) else j
  }

  /** The slice `s[i..j]` that `s.strip()` keeps. */
  function StripBounds(s: string): (b: (nat, nat))
    ensures b.0 <= b.1 <= |s|
    ensures forall k :: 0 <= k < b.0 ==> IsSpace(s[k])
    ensures forall k :: b.1 <= k < |s| ==> IsSpace(s[k])
    ensures b.0 < b.1 ==> !IsSpace(s[b.0]) && !IsSpace(s[b.1 - 1])
  {
    var i := SkipSpace(s, 0);
    (i, TrimEnd(s, i, |s|))
  }

  /** No whitespace at either end. */
  predicate Stripped(s: string) {
    |s| == 0 || (!IsSpace(s[0]) && !IsSpace(s[|s| - 1]))
  }

  /** `r` is the piece of `s` at `i`, and everything around it is whitespace. */
  predicate TrimmedAt(s: string, r: string, i: nat) {
    && OccursAt(s, r, i)
    && (forall k :: 0 <= k < i ==> IsSpace(s[k]))
    && (forall k :: i + |r| <= k < |s| ==> IsSpace(s[k]))
  }

  /** `s.strip()`: `s` without its leading and trailing whitespace. */
  function Strip(s: string): (r: string)
    ensures Stripped(r)
    ensures exists i: nat :: TrimmedAt(s, r, i)
  {
    var b := StripBounds(s);
    assert TrimmedAt(s, s[b.0..b.1], b.0);
    s[b.0..b.1]
  }
}

=== FILE: wrappers.dfy ===
/** Failure-carrying datatypes shared by every module of the model. */
module Wrappers {

  /** A value that may be absent: Python's `None` versus a present value. */
  datatype Option<+T> = None | Some(value: T) {

    /** The value, or `default` when absent (Python's `d.get(key, default)`). */
    function GetOr(default: T): T {
      match this
      case Some(v) => v
      case None => default
    }
  }

  /** The outcome of an operation that can raise: a value or the error raised. */
  datatype Result<+R, +E> = Success(value: R) | Failure(error: E)
}
